=== FILE: README.md ===
# Scroll-driven section navigation, modelled in Dafny

The page is a pinned hero region that cycles through ten sections (an artist
label, a category label, a featured text and a background image each) as the
visitor scrolls or clicks a label. Its only real logic is the section
controller inside the main effect of `src/App.jsx`. This project models that
controller as a pure state machine and proves its guards, the page invariant
it keeps, and how its scroll ratchet steps: one section per report, never
overshooting, and reaching the target when reports keep arriving at the same
progress.

The controller state is `currentSection` with the two locks `isAnimating` and
`isSnapping`. Three transitions act on it:

- `changeSection`
- `snapToSection`
- the scroll observer's update, which steps one section toward
  `min(9, floor(progress * 10))`.

The animation library's completion callbacks arrive as separate events. The
fade of the outgoing background is the only thing that clears `isAnimating`.
The end of the programmatic scroll is the only thing that clears `isSnapping`.

The page is plain data:

- the class set (`active`, `previous`) of each of the ten backgrounds;
- each background's inline opacity;
- the `active` flag of each featured text;
- the opacity of each artist and category label;
- the counter text and the progress-bar width.

Calls out of the controller form an output trace: `soundManager.play(cue, delay)`
and `lenis.scrollTo(position)`. The loading counter, the section offsets, the
progress formatting and the sound toggle are modelled beside the controller.

Modules, one per file:

- `Decimal` (decimal.dfy): `String(n)`, `padStart` and the reader that reads a numeral back.
- `Sections` (sections.dfy): the section constants, `sectionPositions`, the scroll target, and the counter text and fill width.
- `Sound` (sound.dfy): the cues, the play gate, enabling audio and the toggle button.
- `Navigation` (navigation.dfy): the state, events, effects, the three transitions, `Step`, `Run` and the page invariant.
- `Ratchet` (ratchet.dfy): repeated scroll reports and their convergence.
- `Loading` (loading.dfy): the start-up counter.

Three facts about the code shape the model:

- Both locks can be held at once. `snapToSection` tests only `isAnimating` and
  never `isSnapping` (src/App.jsx:203). So a click on another section while a
  programmatic scroll is still running is accepted once the fade is over
  (`Navigation.ClickDuringScrollIsTaken`).
- `sectionPositions` is computed once at mount (src/App.jsx:152-154). A resize
  only refreshes the scroll observer (src/App.jsx:249), so the offsets in the
  state never change (`Navigation.Step` keeps `positions`).
- Scroll-driven steps also go through `snapToSection`. So they take the scroll
  lock and issue a `scrollTo`, just like clicks do.

A behaviour worth knowing, which the model exhibits
(`Navigation.ReturningBackgroundKeepsZeroOpacity`): the outgoing background is
faded to inline opacity 0. When it later becomes active again, only its clip is
animated, so its inline opacity is still 0. Whether it then shows depends on
the stylesheet, which is not part of this model.

A second one concerns a click taken while a snap scroll is still running
(`Navigation.ClickDuringScrollIsTaken`). The smooth-scroll library is not part
of this model. Its `scrollTo` returns without doing anything while a scroll
started with `lock: true` (src/App.jsx:206-211) is still running. So the second
`scrollTo` is dropped rather than replacing the first, and its completion never
fires. The first scroll's completion clears `isSnapping`. The page then shows
the clicked section while the viewport stays at the earlier section's offset.
In the model that completion is the free `ScrollComplete` event, so the lock
properties still hold. The `ScrollTo` effect records the call the controller
makes, not where the viewport ends up.

## Model

| member | source | states |
|---|---|---|
| Decimal.NatToString | src/App.jsx:157 | `String(n)` of a whole number is a non-empty run of digits, with no leading zero unless the number is 0; one digit below 10, two up to 99, three up to 999 |
| Decimal.PadStart | src/App.jsx:157-160 | `padStart(width, fill)` yields the longer of the input length and `width` |
| Decimal.PadStartShape | src/App.jsx:157-160 | the padded string ends with the original string and holds only fill characters in front of it |
| Decimal.ParseNatToString | src/App.jsx:157 | reading the written numeral back gives the number again |
| Decimal.LeadingZerosIgnored | src/App.jsx:132-134 | zeros padded in front do not change a numeral's value |
| Decimal.PaddedNumeralReadsBack | src/App.jsx:132-134 | a zero-padded numeral is all digits and reads back as its number |
| Sections.SectionPositions | src/App.jsx:152-154 | ten offsets; the first is the section's top; for a positive height every offset lies within the section |
| Sections.PositionsIncrease | src/App.jsx:152-154 | for a positive height, later sections have strictly larger offsets |
| Sections.PositionsMapBackToSections | src/App.jsx:152-154 | measured over the section's height, the progress at section i's offset has target i |
| Sections.ScrollTarget | src/App.jsx:240 | the target is at most 9; for progress in [0,1] it is a section; below 9 it is the floor of progress×10; it is 9 exactly when progress×10 ≥ 9 |
| Sections.ScrollTargetMonotone | src/App.jsx:240 | more progress never gives an earlier target |
| Sections.ProgressWidth | src/App.jsx:161 | the fill is 0 at section 0, 100 at section 9, and within [0,100] for every section |
| Sections.ProgressWidthIncreases | src/App.jsx:161 | the fill grows strictly with the section |
| Sections.ProgressLabelReadsBack | src/App.jsx:157-160 | for each section the counter is two digits that read back as section+1 ("01".."10"); it has a leading zero exactly below the last section |
| Sound.Volume | src/utils/SoundManager.js:10-12 | hover loads at 0.15, click and textChange at 0.3 |
| Sound.Loaded | src/utils/SoundManager.js:15-27 | a decoded cue joins the loaded set; it becomes audible exactly when the gate is open |
| Sound.EnableAudio | src/utils/SoundManager.js:29-39 | enabling opens the gate and keeps the loaded cues; afterwards exactly the loaded cues are audible |
| Sound.EnableIdempotent | src/utils/SoundManager.js:29-39 | enabling twice is the same as enabling once |
| Sound.Toggle | src/App.jsx:344-356 | the toggle flips the gate and keeps the loaded cues |
| Sound.ToggleTwiceRestores | src/App.jsx:346-355 | two presses of the toggle restore the player |
| Sound.SilentWhileDisabled | src/utils/SoundManager.js:41-42 | with the gate closed no cue is audible |
| Navigation.Init | src/App.jsx:145-154 | the mounted page satisfies the invariant, shows section 0, holds neither lock, and keeps `sectionPositions` as its offsets; as the markup leaves it (src/App.jsx:280, 294, 313, 328), only background 0 has a class (`active`), no background carries `previous`, and no background, label or fill has an inline style yet |
| Navigation.HighlightRow | src/App.jsx:194-199 | every label is set, at opacity 1 exactly at the new section and 0.3 elsewhere |
| Navigation.SwapDom | src/App.jsx:169-199 | after a swap: the counter and fill follow n; the featured text moves from prev to n; n is the only active background and prev the only previous one; every other background has neither class; prev fades to opacity 0; exactly the labels at n are highlighted |
| Navigation.ChangeSection | src/App.jsx:164-200 | a no-op with no output when n is already shown or a fade is in flight; otherwise the section becomes n, `isAnimating` is set, `isSnapping` and the offsets are kept, the page is swapped, and exactly one `textChange` cue with delay 250 is emitted |
| Navigation.SnapToSection | src/App.jsx:202-212 | a no-op for an index outside 0..9, the current section, or while animating; otherwise both locks are set, the section becomes idx, the page is swapped exactly as `changeSection(idx)` swaps it, the offsets are kept, and the output is the text cue then `scrollTo(positions[idx])` |
| Navigation.NavigateTo | src/App.jsx:215-218 | a nav click always emits the click cue first, then exactly what the snap does |
| Navigation.ScrollUpdate | src/App.jsx:237-245 | a no-op while snapping, while animating, or when the target is the current section; never moves more than one section; otherwise moves one section toward an in-range target without passing it, takes both locks, swaps the page from the old section to the new one as `changeSection` does (src/App.jsx:169-199), keeps the offsets, and emits exactly the text cue at 250 ms followed by `scrollTo(positions[next])` (src/App.jsx:206, 243) |
| Navigation.Step | src/App.jsx:164-245 | only a fade completion clears `isAnimating`; only a scroll completion clears `isSnapping`; only a click or scroll report starts a fade; only an accepted snap from a click or scroll report takes `isSnapping`, and it moves the section and starts a fade with it (src/App.jsx:204); a hover changes nothing and only plays the hover cue (src/App.jsx:221, 226); the section changes only when a fade starts; a `textChange` cue is emitted exactly when the section changes, and then the last call scrolls to the new section's offset; the offsets never change; a click's first output is the click cue |
| Navigation.Heard | src/utils/SoundManager.js:41-51 | each cue is heard exactly as many times as it is requested when the player lets it through, and never otherwise; never more cues than requests, none with the gate closed |
| Navigation.ChangeSectionKeepsInv | src/App.jsx:170-192 | an accepted change keeps one active background at the current section, at most one previous background, the featured text and the counter in step |
| Navigation.SnapKeepsInv | src/App.jsx:202-212 | every snap, accepted or not, keeps the invariant |
| Navigation.StepKeepsInv | src/App.jsx:164-245 | every event keeps the invariant |
| Navigation.RunKeepsInv | src/App.jsx:164-245 | any sequence of events keeps the invariant |
| Navigation.ReachableStatesConsistent | src/App.jsx:145-245 | every state reachable from mount has its section in 0..9 and the page showing it |
| Navigation.RunChangesNothingWithoutEvents | src/App.jsx:183-211 | fade and scroll completions alone change neither the section nor the page, and emit nothing |
| Navigation.ClickDuringScrollIsTaken | src/App.jsx:202-211 | a programmatic scroll in flight does not block a click on another section; afterwards both locks are held |
| Navigation.ClickJumps | src/App.jsx:215-218 | from mount, a click on section 7 jumps straight there and emits click, text cue, then `scrollTo` to section 7's offset |
| Navigation.RejectedClickOnlyClicks | src/App.jsx:215-218 | a rejected click changes nothing and emits only the click cue |
| Navigation.OverlayLeavesNoLabelHighlighted | src/App.jsx:111-128 | when the loading overlay has gone every label is dimmed to 0.3, the current section's too; the section, both locks, the offsets, the backgrounds, the featured text, the counter and the fill are unchanged, and nothing is played or scrolled |
| Navigation.SilentWhileSoundOff | src/utils/SoundManager.js:41-42 | with the gate closed nothing a run requests is heard |
| Navigation.SilentBeforeFirstGesture | src/utils/SoundManager.js:2-7 | the player as constructed, gate closed and nothing loaded, sounds nothing a run requests |
| Navigation.ReturningBackgroundKeepsZeroOpacity | src/App.jsx:174-192 | after going 0→1→0, background 0 is active again but keeps inline opacity 0 |
| Ratchet.CycleIsTickThenCompletions | src/App.jsx:237-245 | one update cycle is the scroll report, then the fade completion, then the scroll completion |
| Ratchet.CycleStepsTowardTarget | src/App.jsx:237-245 | from a quiet page, one cycle moves exactly one section toward the target (or stays on it) and leaves the page quiet; the distance to the target drops by one |
| Ratchet.SettleApproachesTarget | src/App.jsx:237-245 | after k cycles the distance to the target is the old distance minus k, floored at 0 |
| Ratchet.SettleReachesTarget | src/App.jsx:237-245 | after as many cycles as the distance, the target section is shown |
| Ratchet.SweepProgressTargets | src/App.jsx:240 | the middle of section k's progress band lies in [0,1] and has target k |
| Ratchet.SweepFrom | src/App.jsx:237-245 | reports with targets j, j+1, ... show exactly those sections, one per cycle |
| Ratchet.SweepVisitsEverySectionInOrder | src/App.jsx:237-245 | from mount, scrolling through progress 0.05, 0.15, ..., 0.95 shows sections 0, 1, ..., 9 in order |
| Ratchet.ThreeTowardSevenStepsToFour | src/App.jsx:240-243 | at section 3 with target 7, one report moves to section 4 only, with one text cue and a scroll to section 4's offset |
| Ratchet.TicksIgnored | src/App.jsx:238 | while snapping, any run of scroll reports changes nothing and emits nothing |
| Loading.Increment | src/App.jsx:102 | one tick adds at least 1 and less than 4 |
| Loading.Tick | src/App.jsx:101-105 | a stopped counter does not change; a running count rises by exactly the increment while it stays below 100, so by at least 1 and less than 4; it is clamped to exactly 100 only when count plus increment reaches 100; it never exceeds 100; a tick starts the overlay exactly when it stops the counter; a counter still running is below 100 |
| Loading.TickKeepsValid | src/App.jsx:101-105 | a tick keeps the count in [0,100] and running exactly while below 100 |
| Loading.TicksProgress | src/App.jsx:101-105 | after n ticks the count is at least min(100, count+n); the overlay was started once if the counter stopped during the run, otherwise never |
| Loading.FinishesWithinHundredTicks | src/App.jsx:101-106 | from the start, any 100 draws leave the count at exactly 100, the ticking stopped and the overlay started once |
| Loading.BracketedNumeralReadsBack | src/App.jsx:132-134 | a whole part below 100 is written as four characters, two digits in brackets, that read back as the number |
| Loading.CounterLabelReadsBack | src/App.jsx:132-134 | while running the text is "[dd]" with dd reading back as the floor of the count; when full it is "[100]"; a zero count gives the markup's initial "[00]" |

## Left out

- Smooth-scroll physics, its easing and the `requestAnimationFrame` loop (src/App.jsx:81-93) belong to a library. The programmatic scroll is the `ScrollTo` effect plus the `ScrollComplete` event.
- Tween interpolation is left out: durations, delays, the custom ease, the clip-path reveal, and the `y` offsets of the labels. Each tween is recorded by its end value, and only the completion callbacks the controller relies on are events.
- Completion events may arrive at any time in the model, not only while the matching animation runs. This allows more behaviours than the real page has, so the properties about the locks, the section, the classes, the counter, the fill and the output trace still hold for the page.
- Navigation.SwapDom: records each label's opacity by the end value of the latest tween. That assumes the tween started later also ends later. The overlay's dimming tweens (src/App.jsx:113-128) have delays up to 0.84 s and last 0.5 s. A section change within about 1.3 s of the overlay finishing starts 0.3 s highlight tweens (src/App.jsx:194-199) that can end first. The label then ends at 0.3 where `Navigation.Highlighted` says 1. The model does not cover this race.
- Ratchet.SettleApproachesTarget and Ratchet.SettleReachesTarget: the `ScrollTo` effect does not feed back into the progress. Both lemmas assume that after every snap the visitor scrolls back to progress `p`. On the page, an accepted step scrolls to the new section's offset with input locked (src/App.jsx:206-211). If the visitor scrolls no further, the next report asks for the new section and the ratchet stops there.
- Sound.EnableAudio and Sound.Toggle: each enable and each press is treated as atomic and successful. `enableAudio` awaits `audioContext.resume()` before it sets `isEnabled` (src/utils/SoundManager.js:33-37), and the toggle awaits it (src/App.jsx:347). A second press before the resume settles still sees the gate closed and enables again, so `Sound.ToggleTwiceRestores` does not cover that interleaving. A rejected resume, which leaves the gate closed, is not modelled either.
- The scroll observer's pinning, its scroll range, the resize refresh and the body style tweaks (src/App.jsx:231-236, 248-253) are host layout. Progress is an input `ScrollTick(p)` for any real `p`.
- Sections.PositionsMapBackToSections: measures progress over the section's own height. The real observer measures it over the pinned scroll range, which depends on the viewport height.
- Markup, the label texts and the image URLs (src/App.jsx:13-51, 263-365) are not modelled. The one exception is the initial state the markup sets: section 0 active, counter "01" and "[00]".
- The `active` class the markup puts on the first artist and category label is never moved by the code, so it is not modelled.
- Listener registration and cleanup, the first-gesture unlock listeners, and the unmount teardown (src/App.jsx:59-76, 220-228, 256-260) are host plumbing. Their effects appear as the events `LabelHover`, `NavClick`, and `Sound.EnableAudio`.
- Sound.Toggle and Sound.ToggleTwiceRestores: the document-level unlock listeners are not events of the model. src/App.jsx:67-69 registers one `{ once: true }` listener for each of click, touchstart and keydown, each calling `enableAudio`. So the first keydown or touchstart after a mute can reopen the gate, and if the very first click lands on the sound toggle while the gate is open, the document listener runs after the toggle's handler and undoes the mute at once. `Sound.ToggleTwiceRestores` is about two presses alone; it does not promise that a mute stays on.
- SoundManager's fetch, decoding, audio context and scheduling (src/utils/SoundManager.js:1-27, 43-50) are left out. A cue that decodes is the `Sound.Loaded` step. One that fails simply never becomes loaded.
- Floating point: progress, offsets, widths and the count are reals. The text form of the fill width (`…%`) is left out; the width is kept as a number.
- `Math.random()` is an input draw in [0,1). The 30 ms interval is one `Tick` per draw.
- The overlay's slide-out and hiding (src/App.jsx:106-112) appear only as the `OverlayComplete` event, which dims the labels.

=== FILE: decimal.dfy ===
/**
  Decimal numerals as the page writes them: `String(n)` for a whole number,
  `padStart(width, "0")`, and a reader that turns a numeral back into its value
  (the inverse that every rendering below is proved against).
*/
module Decimal {

  predicate IsDigit(c: char) {
    '0' <= c <= '9'
  }

  predicate AllDigits(s: string) {
    forall i :: 0 <= i < |s| ==> IsDigit(s[i])
  }

  function DigitChar(d: int): (c: char)
    requires 0 <= d <= 9
    ensures IsDigit(c)
    ensures c as int - '0' as int == d
  {
    ('0' as int + d) as char
  }

  function DigitValue(c: char): (d: int)
    requires IsDigit(c)
    ensures 0 <= d <= 9
  {
    c as int - '0' as int
  }

  /** The numeral JavaScript's `String(n)` produces for a non-negative whole number:
      digits only, no leading zero unless the number is zero. */
  function NatToString(n: nat): (s: string)
    ensures 1 <= |s|
    ensures AllDigits(s)
    ensures |s| == 1 <==> n < 10
    ensures 10 <= n < 100 ==> |s| == 2
    ensures 100 <= n < 1000 ==> |s| == 3
    ensures 1 < |s| ==> s[0] != '0'
    decreases n
  {
    if n < 10 then [DigitChar(n)] else NatToString(n / 10) + [DigitChar(n % 10)]
  }

  /** `String(n)` for any whole number: a minus sign before the magnitude when negative. */
  function IntToString(n: int): (s: string)
    ensures 0 <= n ==> AllDigits(s)
    ensures n < 0 ==> |s| >= 2 && s[0] == '-'
  {
    if n < 0 then "-" + NatToString(-n) else NatToString(n)
  }

  /** The value of a numeral, most significant digit first. */
  function ParseNat(s: string): nat
    requires AllDigits(s)
    decreases |s|
  {
    if |s| == 0 then 0 else 10 * ParseNat(s[..|s| - 1]) + DigitValue(s[|s| - 1])
  }

  /** `s.padStart(width, fill)` with a one-character fill: `s` unchanged when it is
      already `width` long or longer, otherwise fill characters in front. */
  function PadStart(s: string, width: int, fill: char): (r: string)
    ensures |r| == if |s| >= width then |s| else width
  {
    if |s| >= width then s else Repeat(fill, width - |s|) + s
  }

  /** The padded string ends with the original and is filled in front of it. */
  lemma PadStartShape(s: string, width: int, fill: char)
    ensures var r := PadStart(s, width, fill);
      r[|r| - |s|..] == s && forall i :: 0 <= i < |r| - |s| ==> r[i] == fill
  {
    var r := PadStart(s, width, fill);
    if |s| < width {
      assert r[|r| - |s|..] == s;
    }
  }

  function Repeat(c: char, k: nat): (r: string)
    ensures |r| == k
    ensures forall i :: 0 <= i < k ==> r[i] == c
  {
    seq(k, _ => c)
  }

  function Zeros(k: nat): (z: string)
    ensures |z| == k
    ensures AllDigits(z)
  {
    Repeat('0', k)
  }

  /** Reading back what NatToString writes gives the number again. */
  lemma {:induction false} ParseNatToString(n: nat)
    ensures ParseNat(NatToString(n)) == n
    decreases n
  {
    if n >= 10 {
      var p := NatToString(n / 10);
      var s := p + [DigitChar(n % 10)];
      assert s[..|s| - 1] == p;
      ParseNatToString(n / 10);
    }
  }

  lemma {:induction false} ZerosParseToZero(k: nat)
    ensures ParseNat(Zeros(k)) == 0
  {
    if k > 0 {
      assert Zeros(k)[..k - 1] == Zeros(k - 1);
      ZerosParseToZero(k - 1);
    }
  }

  /** Leading zeros do not change the value of a numeral. */
  lemma {:induction false} LeadingZerosIgnored(k: nat, s: string)
    requires AllDigits(s)
    ensures AllDigits(Zeros(k) + s)
    ensures ParseNat(Zeros(k) + s) == ParseNat(s)
    decreases |s|
  {
    var t := Zeros(k) + s;
    assert AllDigits(t) by {
      forall i | 0 <= i < |t| ensures IsDigit(t[i]) {
        if i < k { assert t[i] == '0'; } else { assert t[i] == s[i - k]; }
      }
    }
    if |s| == 0 {
      assert t == Zeros(k);
      ZerosParseToZero(k);
    } else {
      assert t[..|t| - 1] == Zeros(k) + s[..|s| - 1];
      LeadingZerosIgnored(k, s[..|s| - 1]);
    }
  }

  /** Padding a numeral with zeros keeps its digits and its value. */
  lemma PaddedNumeralReadsBack(n: nat, width: int)
    ensures AllDigits(PadStart(NatToString(n), width, '0'))
    ensures ParseNat(PadStart(NatToString(n), width, '0')) == n
  {
    var s := NatToString(n);
    ParseNatToString(n);
    if |s| < width {
      var k := width - |s|;
      assert PadStart(s, width, '0') == Zeros(k) + s;
      LeadingZerosIgnored(k, s);
    }
  }
}

=== FILE: loading.dfy ===
/**
  The loading counter shown over the page at start-up. Every 30 ms tick adds
  `Math.random() * 3 + 1` to the count; once the count reaches 100 it is clamped
  to 100, the ticking stops and the overlay starts to slide away. After each
  tick the counter reads `"[" + floor(count) padded to two digits + "]"`.
  The random draw is an input of the tick.
*/
module Loading {
  import opened Decimal

  const Full: real := 100.0

  datatype Counter = Counter(count: real, running: bool)

  const InitialCounter: Counter := Counter(0.0, true)

  /** The counter text written after a tick at `count`. */
  function CounterLabel(count: real): string {
    "[" + PadStart(IntToString(count.Floor), 2, '0') + "]"
  }

  /** How much one tick adds for a draw `r` of `Math.random()`. */
  function Increment(r: real): (inc: real)
    requires 0.0 <= r < 1.0
    ensures 1.0 <= inc < 4.0
  {
    r * 3.0 + 1.0
  }

  /** Every counter the ticking can produce. */
  predicate Valid(c: Counter) {
    0.0 <= c.count <= Full && (c.running <==> c.count < Full)
  }

  /** A tick with draw `r`; the flag says whether this tick finished the count and
      started the overlay. A stopped counter has no more ticks. */
  function Tick(c: Counter, r: real): (t: (Counter, bool))
    requires 0.0 <= r < 1.0
    ensures !c.running ==> t == (c, false)
    ensures c.running ==> t.0.count >= c.count + 1.0 || t.0.count == Full
    ensures c.running && c.count < Full ==> t.0.count <= Full && t.0.count > c.count
    ensures t.1 <==> c.running && !t.0.running
    ensures t.0.running ==> t.0.count < Full
    ensures c.running && !t.0.running ==> t.0.count == Full
    ensures c.running && t.0.running ==> t.0.count == c.count + Increment(r)
    ensures c.running && !t.0.running ==> c.count + Increment(r) >= Full
    ensures c.running ==> t.0.count < c.count + 4.0
  {
    if !c.running then (c, false)
    else
      var raised := c.count + Increment(r);
      if raised >= Full then (Counter(Full, false), true)
      else (Counter(raised, true), false)
  }

  lemma TickKeepsValid(c: Counter, r: real)
    requires Valid(c)
    requires 0.0 <= r < 1.0
    ensures Valid(Tick(c, r).0)
  {
  }

  /** Ticks in order, with the number of them that started the overlay. */
  function Ticks(c: Counter, draws: seq<real>): (t: (Counter, nat))
    requires forall k :: 0 <= k < |draws| ==> 0.0 <= draws[k] < 1.0
    decreases |draws|
  {
    if |draws| == 0 then (c, 0)
    else
      var first := Tick(c, draws[0]);
      var rest := Ticks(first.0, draws[1..]);
      (rest.0, rest.1 + (if first.1 then 1 else 0))
  }

  /** Each tick raises a running count by at least one until it is full, and the
      overlay starts once, exactly when the count stops. */
  lemma {:induction false} TicksProgress(c: Counter, draws: seq<real>)
    requires Valid(c)
    requires forall k :: 0 <= k < |draws| ==> 0.0 <= draws[k] < 1.0
    ensures Valid(Ticks(c, draws).0)
    ensures Ticks(c, draws).0.count >=
      (if c.count + |draws| as real < Full then c.count + |draws| as real else Full)
    ensures Ticks(c, draws).1 == if c.running && !Ticks(c, draws).0.running then 1 else 0
    decreases |draws|
  {
    if |draws| > 0 {
      var first := Tick(c, draws[0]);
      TickKeepsValid(c, draws[0]);
      TicksProgress(first.0, draws[1..]);
    }
  }

  /** From the start, one hundred ticks always finish: the count is exactly 100,
      the ticking has stopped and the overlay was started once. */
  lemma FinishesWithinHundredTicks(draws: seq<real>)
    requires |draws| >= 100
    requires forall k :: 0 <= k < |draws| ==> 0.0 <= draws[k] < 1.0
    ensures Ticks(InitialCounter, draws).0.count == Full
    ensures !Ticks(InitialCounter, draws).0.running
    ensures Ticks(InitialCounter, draws).1 == 1
  {
    TicksProgress(InitialCounter, draws);
  }

  /** A whole part below 100 is shown as two digits between brackets that read back
      as that number. */
  lemma BracketedNumeralReadsBack(f: nat)
    requires f < 100
    ensures var text := "[" + PadStart(NatToString(f), 2, '0') + "]";
      && |text| == 4 && text[0] == '[' && text[3] == ']'
      && AllDigits(text[1..3])
      && ParseNat(text[1..3]) == f
  {
    var digits := PadStart(NatToString(f), 2, '0');
    PaddedNumeralReadsBack(f, 2);
    assert |digits| == 2;
    var text := "[" + digits + "]";
    assert text[1] == digits[0] && text[2] == digits[1];
    assert text[1..3] == digits;
  }

  /** While counting, the text is a bracketed two-digit numeral of the whole part of
      the count; once full it is "[100]". The markup's initial "[00]" is the text
      of a zero count. */
  lemma CounterLabelReadsBack(c: Counter)
    requires Valid(c)
    ensures c.running ==>
      && |CounterLabel(c.count)| == 4
      && AllDigits(CounterLabel(c.count)[1..3])
      && ParseNat(CounterLabel(c.count)[1..3]) == c.count.Floor
    ensures !c.running ==> CounterLabel(c.count) == "[100]"
    ensures CounterLabel(InitialCounter.count) == "[00]"
  {
    assert (0.0).Floor == 0;
    if c.running {
      var f := c.count.Floor;
      assert 0 <= f < 100;
      BracketedNumeralReadsBack(f);
    } else {
      assert c.count.Floor == 100;
      assert NatToString(10) == "10";
      assert NatToString(100) == "100";
    }
  }
}

=== FILE: navigation.dfy ===
/**
  The section controller of the pinned hero region as a pure state machine.

  The state is the current section with the two re-entrancy flags, the section
  offsets fixed at mount, and the parts of the page the controller writes: the
  class sets of the ten backgrounds, the "active" flag of the ten featured
  texts, the opacities of the artist and category labels, the counter text and
  the progress-bar width. Animation-library tweens are recorded by the value
  they end at; their completion callbacks, and the end of a programmatic
  scroll, arrive as events of their own. Every call the controller makes to
  the sound player or to the smooth-scroll library is an Effect in the output.
*/
module Navigation {
  import opened Sections
  import opened Sound

  datatype BgClass = Active | Previous

  /** An inline style property: absent (the stylesheet decides) or set. */
  datatype StyleValue = Unset | Set(value: real)

  type ClassRow = r: seq<set<BgClass>> | |r| == SectionCount witness seq(SectionCount, _ => {})
  type FlagRow = r: seq<bool> | |r| == SectionCount witness seq(SectionCount, _ => false)
  type StyleRow = r: seq<StyleValue> | |r| == SectionCount witness seq(SectionCount, _ => Unset)

  datatype Dom = Dom(
    backgrounds: ClassRow,
    backgroundOpacity: StyleRow,
    featured: FlagRow,
    artists: StyleRow,
    categories: StyleRow,
    sectionLabel: string,
    progressFill: StyleValue)

  datatype State = State(
    current: int,
    isAnimating: bool,
    isSnapping: bool,
    positions: Positions,
    dom: Dom)

  /** A call out of the controller: `soundManager.play(cue, delayMs)` or
      `lenis.scrollTo(position)`. */
  datatype Effect = Play(cue: Cue, delayMs: int) | ScrollTo(position: real)

  datatype Event =
    | LabelHover                // the pointer enters an artist or category label
    | NavClick(index: int)      // pointer released on the label of section `index`
    | ScrollTick(progress: real) // the scroll observer reports progress over the pinned region
    | FadeComplete              // the outgoing background's fade finished
    | ScrollComplete            // the programmatic scroll finished
    | OverlayComplete           // the loading overlay finished sliding away

  datatype Transition = Transition(state: State, effects: seq<Effect>)

  const TextChangeDelayMs: int := 250
  const HighlightOpacity: real := 1.0
  const DimOpacity: real := 0.3

  /** Every label in the row is set, at full opacity exactly at `n` and dimmed elsewhere. */
  predicate Highlighted(row: StyleRow, n: int) {
    forall i :: 0 <= i < SectionCount ==>
      row[i].Set? && (row[i].value == HighlightOpacity <==> i == n) &&
      (i != n ==> row[i].value == DimOpacity)
  }

  /** Background classes right after a swap from `prev` to `n`. */
  predicate Swapped(bg: ClassRow, prev: int, n: int) {
    forall i :: 0 <= i < SectionCount ==>
      bg[i] == if i == n then {Active} else if i == prev then {Previous} else {}
  }

  /** What holds of every state the page can reach. */
  ghost predicate Inv(s: State) {
    && IsSection(s.current)
    && (forall i :: 0 <= i < SectionCount ==>
          (Active in s.dom.backgrounds[i] <==> i == s.current))
    && Previous !in s.dom.backgrounds[s.current]
    && (forall i, j ::
          (0 <= i < SectionCount && 0 <= j < SectionCount &&
           Previous in s.dom.backgrounds[i] && Previous in s.dom.backgrounds[j]) ==> i == j)
    && (forall i :: 0 <= i < SectionCount ==> (s.dom.featured[i] <==> i == s.current))
    && s.dom.sectionLabel == ProgressLabel(s.current)
    && (s.dom.progressFill.Set? ==> s.dom.progressFill.value == ProgressWidth(s.current))
  }

  /** The page as mounted: section 0 shown, nothing in flight, the counter at "01". */
  function Init(secTop: real, secHeight: real): (s: State)
    ensures Inv(s)
    ensures s.current == 0 && !s.isAnimating && !s.isSnapping
    ensures s.positions == SectionPositions(secTop, secHeight)
    ensures forall i :: 0 <= i < SectionCount ==>
      && s.dom.backgrounds[i] == (if i == 0 then {Active} else {})
      && s.dom.backgroundOpacity[i] == Unset
      && s.dom.artists[i] == Unset
      && s.dom.categories[i] == Unset
    ensures s.dom.progressFill == Unset
  {
    var dom := Dom(
      seq(SectionCount, i => if i == 0 then {Active} else {}),
      seq(SectionCount, _ => Unset),
      seq(SectionCount, i => i == 0),
      seq(SectionCount, _ => Unset),
      seq(SectionCount, _ => Unset),
      "01",
      Unset);
    State(0, false, false, SectionPositions(secTop, secHeight), dom)
  }

  /** The row with the opacity at `k` set to 0; unchanged when `k` names no element. */
  function FadeOut(row: StyleRow, k: int): (r: StyleRow) {
    if 0 <= k < SectionCount then row[k := Set(0.0)] else row
  }

  /** The artist or category opacities after a change to `n`. */
  function HighlightRow(n: int): (r: StyleRow)
    ensures Highlighted(r, n)
  {
    seq(SectionCount, i => Set(if i == n then HighlightOpacity else DimOpacity))
  }

  /** The page writes of an accepted change from `prev` to `n`: the counter and the
      fill follow `n`, the featured text moves from `prev` to `n`, `n` becomes the
      only active background and `prev` the only previous one (and fades out), and
      exactly the labels at `n` are highlighted. */
  function SwapDom(d: Dom, prev: int, n: int): (r: Dom)
    requires prev != n
    ensures r.sectionLabel == ProgressLabel(n)
    ensures r.progressFill == Set(ProgressWidth(n))
    ensures Swapped(r.backgrounds, prev, n)
    ensures Highlighted(r.artists, n) && Highlighted(r.categories, n)
    ensures forall i :: 0 <= i < SectionCount ==>
      r.featured[i] == (i == n || (i != prev && d.featured[i]))
    ensures forall i :: 0 <= i < SectionCount ==>
      r.backgroundOpacity[i] == (if i == prev then Set(0.0) else d.backgroundOpacity[i])
  {
    d.(
      sectionLabel := ProgressLabel(n),
      progressFill := Set(ProgressWidth(n)),
      featured := seq(SectionCount, i requires 0 <= i < SectionCount =>
        if i == n then true else if i == prev then false else d.featured[i]),
      backgrounds := seq(SectionCount, i =>
        if i == n then {Active} else if i == prev then {Previous} else {}),
      backgroundOpacity := FadeOut(d.backgroundOpacity, prev),
      artists := HighlightRow(n),
      categories := HighlightRow(n))
  }

  /** `changeSection(n)`: ignored when `n` is already shown or a fade is in flight;
      otherwise the section becomes `n`, the animation lock is taken, the page is
      swapped over to `n` and one delayed text cue plays. */
  function ChangeSection(s: State, n: int): (t: Transition)
    ensures n == s.current || s.isAnimating ==> t == Transition(s, [])
    ensures n != s.current && !s.isAnimating ==>
      && t.state.current == n
      && t.state.isAnimating
      && t.state.isSnapping == s.isSnapping
      && t.state.positions == s.positions
      && t.state.dom == SwapDom(s.dom, s.current, n)
      && t.effects == [Play(TextChange, TextChangeDelayMs)]
  {
    if n == s.current || s.isAnimating then Transition(s, [])
    else
      Transition(State(n, true, s.isSnapping, s.positions, SwapDom(s.dom, s.current, n)),
                 [Play(TextChange, TextChangeDelayMs)])
  }

  /** `snapToSection(idx)`: ignored for an index outside 0..9, the section already
      shown, or while a fade is in flight (a programmatic scroll in flight does
      not block it). Otherwise it marks the scroll lock, changes section and asks
      the smooth-scroll library to move to the section's offset. */
  function SnapToSection(s: State, idx: int): (t: Transition)
    ensures !IsSection(idx) || idx == s.current || s.isAnimating ==> t == Transition(s, [])
    ensures IsSection(idx) && idx != s.current && !s.isAnimating ==>
      && t.state.current == idx
      && t.state.isAnimating
      && t.state.isSnapping
      && t.state.positions == s.positions
      && t.state.dom == SwapDom(s.dom, s.current, idx)
      && t.effects == [Play(TextChange, TextChangeDelayMs), ScrollTo(s.positions[idx])]
  {
    if !IsSection(idx) || idx == s.current || s.isAnimating then Transition(s, [])
    else
      var changed := ChangeSection(s.(isSnapping := true), idx);
      Transition(changed.state, changed.effects + [ScrollTo(s.positions[idx])])
  }

  /** `handleNavClick(index)`: the click cue always plays, then the snap is attempted. */
  function NavigateTo(s: State, index: int): (t: Transition)
    ensures |t.effects| >= 1 && t.effects[0] == Play(Click, 0)
    ensures t.state == SnapToSection(s, index).state
    ensures t.effects[1..] == SnapToSection(s, index).effects
  {
    var snapped := SnapToSection(s, index);
    Transition(snapped.state, [Play(Click, 0)] + snapped.effects)
  }

  /** The scroll observer's update: ignored during a programmatic scroll; otherwise,
      when the target section differs and no fade is in flight, it snaps exactly
      one section toward the target. */
  function ScrollUpdate(s: State, p: real): (t: Transition)
    ensures s.isSnapping || s.isAnimating || ScrollTarget(p) == s.current ==> t == Transition(s, [])
    ensures IsSection(s.current) ==> Distance(t.state.current, s.current) <= 1
    ensures (!s.isSnapping && !s.isAnimating && IsSection(s.current) &&
             ScrollTarget(p) != s.current && IsSection(ScrollTarget(p))) ==>
      && t.state.isSnapping
      && t.state.isAnimating
      && (s.current < ScrollTarget(p) ==> t.state.current == s.current + 1 <= ScrollTarget(p))
      && (s.current > ScrollTarget(p) ==> t.state.current == s.current - 1 >= ScrollTarget(p))
      && t.state.positions == s.positions
      && t.state.dom == SwapDom(s.dom, s.current, t.state.current)
      && t.effects == [Play(TextChange, TextChangeDelayMs), ScrollTo(s.positions[t.state.current])]
  {
    if s.isSnapping then Transition(s, [])
    else
      var target := ScrollTarget(p);
      if target != s.current && !s.isAnimating then
        SnapToSection(s, s.current + (if target > s.current then 1 else -1))
      else Transition(s, [])
  }

  /** One event of the page. */
  function Step(s: State, e: Event): (t: Transition)
    ensures s.isAnimating && !t.state.isAnimating ==> e.FadeComplete?
    ensures s.isSnapping && !t.state.isSnapping ==> e.ScrollComplete?
    ensures !s.isAnimating && t.state.isAnimating ==>
      (e.NavClick? || e.ScrollTick?) && t.state.isSnapping && t.state.current != s.current
    ensures !s.isSnapping && t.state.isSnapping ==>
      (e.NavClick? || e.ScrollTick?) && t.state.isAnimating && t.state.current != s.current
    ensures e.LabelHover? ==> t == Transition(s, [Play(Hover, 0)])
    ensures t.state.current != s.current ==> !s.isAnimating && t.state.isAnimating
    ensures t.state.positions == s.positions
    ensures e.NavClick? ==> |t.effects| >= 1 && t.effects[0] == Play(Click, 0)
    ensures e.ScrollTick? && IsSection(s.current) ==> Distance(t.state.current, s.current) <= 1
    ensures Play(TextChange, TextChangeDelayMs) in t.effects <==> t.state.current != s.current
    ensures t.state.current != s.current ==>
      IsSection(t.state.current) && |t.effects| >= 2 &&
      t.effects[|t.effects| - 1] == ScrollTo(s.positions[t.state.current])
  {
    match e
    case LabelHover => Transition(s, [Play(Hover, 0)])
    case NavClick(i) => NavigateTo(s, i)
    case ScrollTick(p) => ScrollUpdate(s, p)
    case FadeComplete => Transition(s.(isAnimating := false), [])
    case ScrollComplete => Transition(s.(isSnapping := false), [])
    case OverlayComplete =>
      var dimmed := seq(SectionCount, _ => Set(DimOpacity));
      Transition(s.(dom := s.dom.(artists := dimmed, categories := dimmed)), [])
  }

  /** How many times `effects` asks for cue `c`. */
  function Requests(effects: seq<Effect>, c: Cue): nat
    decreases |effects|
  {
    if |effects| == 0 then 0
    else (if effects[0].Play? && effects[0].cue == c then 1 else 0) + Requests(effects[1..], c)
  }

  /** The cues of a trace that the player actually sounds: one playback per
      request the gate lets through, and nothing else. */
  function Heard(p: Player, effects: seq<Effect>): (h: seq<Cue>)
    ensures |h| <= |effects|
    ensures forall c :: multiset(h)[c] == if Audible(p, c) then Requests(effects, c) else 0
    ensures !p.enabled ==> h == []
    ensures forall c :: c in h <==>
      (Audible(p, c) && exists k :: 0 <= k < |effects| && effects[k].Play? && effects[k].cue == c)
    decreases |effects|
  {
    if |effects| == 0 then []
    else
      var first := effects[0];
      var rest := Heard(p, effects[1..]);
      assert forall k :: 0 <= k < |effects| - 1 ==> effects[1..][k] == effects[k + 1];
      assert forall c :: Requests(effects, c) ==
                         (if first.Play? && first.cue == c then 1 else 0) + Requests(effects[1..], c);
      if first.Play? && Audible(p, first.cue) then
        assert multiset([first.cue] + rest) == multiset{first.cue} + multiset(rest);
        [first.cue] + rest
      else rest
  }

  /** Events in order, with all the calls they make. */
  function Run(s: State, events: seq<Event>): Transition
    decreases |events|
  {
    if |events| == 0 then Transition(s, [])
    else
      var first := Step(s, events[0]);
      var rest := Run(first.state, events[1..]);
      Transition(rest.state, first.effects + rest.effects)
  }

  /** An accepted section change keeps the page consistent: one active background
      at the new section, at most one previous background, the featured text and
      the counter following the section. */
  lemma ChangeSectionKeepsInv(s: State, n: int)
    requires Inv(s)
    requires IsSection(n)
    ensures Inv(ChangeSection(s, n).state)
  {
    var t := ChangeSection(s, n);
    if n != s.current && !s.isAnimating {
      var bg := t.state.dom.backgrounds;
      forall i, j | 0 <= i < SectionCount && 0 <= j < SectionCount &&
        Previous in bg[i] && Previous in bg[j]
        ensures i == j
      {
        assert i == s.current && j == s.current;
      }
    }
  }

  /** A snap, accepted or not, keeps the page consistent. */
  lemma SnapKeepsInv(s: State, idx: int)
    requires Inv(s)
    ensures Inv(SnapToSection(s, idx).state)
  {
    if IsSection(idx) && idx != s.current && !s.isAnimating {
      ChangeSectionKeepsInv(s.(isSnapping := true), idx);
    }
  }

  /** Every event keeps the page consistent. */
  lemma StepKeepsInv(s: State, e: Event)
    requires Inv(s)
    ensures Inv(Step(s, e).state)
  {
    match e
    case NavClick(i) =>
      SnapKeepsInv(s, i);
      assert Step(s, e).state == SnapToSection(s, i).state;
    case ScrollTick(p) =>
      var target := ScrollTarget(p);
      if !s.isSnapping && target != s.current && !s.isAnimating {
        var next := s.current + (if target > s.current then 1 else -1);
        SnapKeepsInv(s, next);
        assert Step(s, e).state == SnapToSection(s, next).state;
      }
    case _ =>
  }

  lemma {:induction false} RunKeepsInv(s: State, events: seq<Event>)
    requires Inv(s)
    ensures Inv(Run(s, events).state)
    decreases |events|
  {
    if |events| > 0 {
      StepKeepsInv(s, events[0]);
      RunKeepsInv(Step(s, events[0]).state, events[1..]);
    }
  }

  /** Whatever happens after mount, the section stays in 0..9 and the page shows it. */
  lemma ReachableStatesConsistent(secTop: real, secHeight: real, events: seq<Event>)
    ensures Inv(Run(Init(secTop, secHeight), events).state)
  {
    RunKeepsInv(Init(secTop, secHeight), events);
  }

  /** Fade and scroll completions alone change neither the section nor the page,
      and call nothing. */
  lemma {:induction false} RunChangesNothingWithoutEvents(s: State, events: seq<Event>)
    requires forall k :: 0 <= k < |events| ==> events[k].FadeComplete? || events[k].ScrollComplete?
    ensures Run(s, events).state.current == s.current
    ensures Run(s, events).state.dom == s.dom
    ensures Run(s, events).effects == []
    decreases |events|
  {
    if |events| > 0 {
      RunChangesNothingWithoutEvents(Step(s, events[0]).state, events[1..]);
    }
  }

  /** A programmatic scroll in flight does not block direct navigation: a click
      on another section is taken as soon as the fade is over, so both locks end
      up held together. */
  lemma ClickDuringScrollIsTaken(s: State, i: int)
    requires Inv(s)
    requires s.isSnapping && !s.isAnimating
    requires IsSection(i) && i != s.current
    ensures Step(s, NavClick(i)).state.current == i
    ensures Step(s, NavClick(i)).state.isAnimating && Step(s, NavClick(i)).state.isSnapping
  {
  }

  /** A click may jump over several sections at once, unlike scrolling. */
  lemma ClickJumps(secTop: real, secHeight: real)
    ensures var t := Run(Init(secTop, secHeight), [NavClick(7)]);
      t.state.current == 7 &&
      t.effects == [Play(Click, 0), Play(TextChange, TextChangeDelayMs),
                    ScrollTo(SectionPositions(secTop, secHeight)[7])]
  {
  }

  /** A rejected click still plays the click cue, and nothing else. */
  lemma RejectedClickOnlyClicks(s: State, i: int)
    requires !IsSection(i) || i == s.current || s.isAnimating
    ensures Step(s, NavClick(i)) == Transition(s, [Play(Click, 0)])
  {
  }

  /** When the loading overlay has gone every label is dimmed, the current
      section's included; nothing else on the page or in the locks changes, and
      nothing is played or scrolled. */
  lemma OverlayLeavesNoLabelHighlighted(s: State)
    ensures Step(s, OverlayComplete).state.current == s.current
    ensures Step(s, OverlayComplete).effects == []
    ensures var t := Step(s, OverlayComplete).state;
      && t.isAnimating == s.isAnimating
      && t.isSnapping == s.isSnapping
      && t.positions == s.positions
      && t.dom.backgrounds == s.dom.backgrounds
      && t.dom.backgroundOpacity == s.dom.backgroundOpacity
      && t.dom.featured == s.dom.featured
      && t.dom.sectionLabel == s.dom.sectionLabel
      && t.dom.progressFill == s.dom.progressFill
    ensures forall i :: 0 <= i < SectionCount ==>
      Step(s, OverlayComplete).state.dom.artists[i] == Set(DimOpacity) &&
      Step(s, OverlayComplete).state.dom.categories[i] == Set(DimOpacity)
  {
  }

  /** With the sound gate closed nothing the page requests is heard. */
  lemma SilentWhileSoundOff(p: Player, s: State, events: seq<Event>)
    requires !p.enabled
    ensures Heard(p, Run(s, events).effects) == []
  {
  }

  /** Until the first gesture opens the gate, the player as constructed sounds
      nothing, whatever the page requests. */
  lemma SilentBeforeFirstGesture(s: State, events: seq<Event>)
    ensures Heard(InitialPlayer, Run(s, events).effects) == []
  {
    SilentWhileSoundOff(InitialPlayer, s, events);
  }

  /** A background that faded out keeps its inline opacity of 0 when it becomes
      active again: the change only animates its clip, never its opacity. */
  lemma ReturningBackgroundKeepsZeroOpacity(secTop: real, secHeight: real)
    ensures var s := Run(Init(secTop, secHeight),
                         [NavClick(1), FadeComplete, ScrollComplete, NavClick(0)]).state;
      s.current == 0 && Active in s.dom.backgrounds[0] &&
      s.dom.backgroundOpacity[0] == Set(0.0)
  {
  }
}

=== FILE: ratchet.dfy ===
/**
  The scroll ratchet over time. One update cycle is a scroll progress report
  followed by the fade completion and the scroll completion it may have started.
  Every cycle moves the section at most one step toward the section the progress
  asks for. Repeated cycles at the same progress walk it there and then stay.
  The programmatic scroll a step issues is not fed back into the progress.
*/
module Ratchet {
  import opened Sections
  import opened Navigation

  /** Nothing in flight and a section in 0..9 shown: all the ratchet relies on. */
  predicate Idle(s: State) {
    IsSection(s.current) && !s.isAnimating && !s.isSnapping
  }

  /** A scroll progress report at `p`, then both completions. */
  function Cycle(s: State, p: real): State {
    ScrollUpdate(s, p).state.(isAnimating := false, isSnapping := false)
  }

  /** The cycle is exactly the three events in a row. */
  lemma CycleIsTickThenCompletions(s: State, p: real)
    ensures Cycle(s, p) == Run(s, [ScrollTick(p), FadeComplete, ScrollComplete]).state
  {
    var s1 := Step(s, ScrollTick(p)).state;
    var s2 := Step(s1, FadeComplete).state;
    var s3 := Step(s2, ScrollComplete).state;
    assert [ScrollComplete][1..] == [];
    assert Run(s2, [ScrollComplete]).state == s3;
    assert [FadeComplete, ScrollComplete][1..] == [ScrollComplete];
    assert Run(s1, [FadeComplete, ScrollComplete]).state == s3;
    assert [ScrollTick(p), FadeComplete, ScrollComplete][1..] == [FadeComplete, ScrollComplete];
    assert Run(s, [ScrollTick(p), FadeComplete, ScrollComplete]).state == s3;
  }

  /** `k` update cycles at progress `p`. */
  function Settle(s: State, p: real, k: nat): State
    decreases k
  {
    if k == 0 then s else Settle(Cycle(s, p), p, k - 1)
  }

  /** One cycle from a quiet page steps exactly one section toward the target,
      or stays put when already there, and leaves the page quiet again. */
  lemma CycleStepsTowardTarget(s: State, p: real)
    requires Idle(s)
    requires 0.0 <= p <= 1.0
    ensures Idle(Cycle(s, p))
    ensures var t := ScrollTarget(p);
      Cycle(s, p).current ==
        if s.current < t then s.current + 1
        else if s.current > t then s.current - 1
        else s.current
    ensures Distance(Cycle(s, p).current, ScrollTarget(p)) ==
      if s.current == ScrollTarget(p) then 0 else Distance(s.current, ScrollTarget(p)) - 1
  {
  }

  /** After `k` cycles the distance to the target has shrunk by `k`, down to zero:
      the section never overshoots and never skips. */
  lemma {:induction false} SettleApproachesTarget(s: State, p: real, k: nat)
    requires Idle(s)
    requires 0.0 <= p <= 1.0
    ensures Idle(Settle(s, p, k))
    ensures Distance(Settle(s, p, k).current, ScrollTarget(p)) ==
      if k >= Distance(s.current, ScrollTarget(p)) then 0
      else Distance(s.current, ScrollTarget(p)) - k
    decreases k
  {
    if k > 0 {
      var next := Cycle(s, p);
      CycleStepsTowardTarget(s, p);
      SettleApproachesTarget(next, p, k - 1);
      assert Settle(s, p, k) == Settle(next, p, k - 1);
    }
  }

  /** The ratchet converges: after as many cycles as sections separate the page
      from the target, the target section is shown. */
  lemma SettleReachesTarget(s: State, p: real, k: nat)
    requires Idle(s)
    requires 0.0 <= p <= 1.0
    requires k >= Distance(s.current, ScrollTarget(p))
    ensures Settle(s, p, k).current == ScrollTarget(p)
  {
    SettleApproachesTarget(s, p, k);
  }

  /** The section shown after each cycle of a progress sequence. */
  function Visits(s: State, ps: seq<real>): (v: seq<int>)
    ensures |v| == |ps|
    decreases |ps|
  {
    if |ps| == 0 then [] else [Cycle(s, ps[0]).current] + Visits(Cycle(s, ps[0]), ps[1..])
  }

  /** The middle of section `k`'s band of progress: 0.05, 0.15, ..., 0.95. */
  function SweepProgress(k: int): real {
    (2 * k + 1) as real / 20.0
  }

  lemma SweepProgressTargets(k: int)
    requires IsSection(k)
    ensures 0.0 <= SweepProgress(k) <= 1.0
    ensures ScrollTarget(SweepProgress(k)) == k
  {
    assert SweepProgress(k) * 10.0 == k as real + 0.5;
  }

  /** Progress reports whose targets are `j`, `j + 1`, ... from a page showing `j`
      or the section just before it show exactly those sections, one per cycle. */
  lemma {:induction false} SweepFrom(s: State, j: int, ps: seq<real>)
    requires Idle(s)
    requires 0 <= j && j + |ps| <= SectionCount
    requires s.current == j || s.current == j - 1
    requires forall k :: 0 <= k < |ps| ==> 0.0 <= ps[k] <= 1.0 && ScrollTarget(ps[k]) == j + k
    ensures forall k :: 0 <= k < |ps| ==> Visits(s, ps)[k] == j + k
    decreases |ps|
  {
    if |ps| > 0 {
      CycleStepsTowardTarget(s, ps[0]);
      var s' := Cycle(s, ps[0]);
      var rest := ps[1..];
      assert Visits(s, ps) == [j] + Visits(s', rest);
      SweepFrom(s', j + 1, rest);
    }
  }

  /** Scrolling through the middles of the ten bands from the top shows the
      sections 0, 1, ..., 9 in order, one per cycle, with no skips. */
  lemma SweepVisitsEverySectionInOrder(secTop: real, secHeight: real)
    ensures Visits(Init(secTop, secHeight), seq(SectionCount, k => SweepProgress(k))) ==
      seq(SectionCount, k => k)
  {
    var ps := seq(SectionCount, k => SweepProgress(k));
    forall k | 0 <= k < |ps|
      ensures 0.0 <= ps[k] <= 1.0 && ScrollTarget(ps[k]) == 0 + k
    {
      SweepProgressTargets(k);
    }
    SweepFrom(Init(secTop, secHeight), 0, ps);
  }

  /** From section 3 with progress asking for section 7, one report asks for
      section 4 only. */
  lemma ThreeTowardSevenStepsToFour(s: State)
    requires Idle(s) && s.current == 3
    ensures Step(s, ScrollTick(0.75)).state.current == 4
    ensures Step(s, ScrollTick(0.75)).effects ==
      [Play(Sound.TextChange, TextChangeDelayMs), ScrollTo(s.positions[4])]
  {
    assert ScrollTarget(0.75) == 7;
  }

  /** While a programmatic scroll is in flight every progress report is ignored. */
  lemma {:induction false} TicksIgnored(s: State, events: seq<Event>)
    requires s.isSnapping
    requires forall k :: 0 <= k < |events| ==> events[k].ScrollTick?
    ensures Run(s, events) == Transition(s, [])
    decreases |events|
  {
    if |events| > 0 {
      TicksIgnored(s, events[1..]);
    }
  }
}

=== FILE: sections.dfy ===
/**
  The ten sections of the pinned hero region and the pure arithmetic around
  them: the scroll offset of each section, the section a scroll progress asks
  for, and the "01".."10" counter with its progress bar.
*/
module Sections {
  import opened Decimal

  const SectionCount: int := 10
  const LastSection: int := SectionCount - 1

  predicate IsSection(i: int) {
    0 <= i <= LastSection
  }

  function Distance(a: int, b: int): nat {
    if a <= b then b - a else a - b
  }

  /** One scroll offset per section, fixed once at mount. */
  type Positions = ps: seq<real> | |ps| == SectionCount witness seq(SectionCount, _ => 0.0)

  /** `sectionPositions`: the pinned section's height split into ten equal bands,
      measured from its top. */
  function SectionPositions(secTop: real, secHeight: real): (ps: Positions)
    ensures ps[0] == secTop
    ensures secHeight > 0.0 ==>
      forall i :: 0 <= i < SectionCount ==> secTop <= ps[i] < secTop + secHeight
  {
    seq(SectionCount, i => secTop + secHeight * (i as real) / 10.0)
  }

  /** For a section of positive height, later sections sit strictly lower on the page. */
  lemma PositionsIncrease(secTop: real, secHeight: real, i: int, j: int)
    requires secHeight > 0.0
    requires 0 <= i < j < SectionCount
    ensures SectionPositions(secTop, secHeight)[i] < SectionPositions(secTop, secHeight)[j]
  {
    var ps := SectionPositions(secTop, secHeight);
    assert ps[j] - ps[i] == secHeight * ((j - i) as real) / 10.0;
    assert secHeight * ((j - i) as real) > 0.0;
  }

  /** The section the scroll observer aims for at progress `p`:
      `Math.min(9, Math.floor(p * 10))`. */
  function ScrollTarget(p: real): (t: int)
    ensures t <= LastSection
    ensures 0.0 <= p ==> 0 <= t
    ensures 0.0 <= p <= 1.0 ==> IsSection(t)
    ensures t < LastSection ==> t as real <= p * 10.0 < t as real + 1.0
    ensures t == LastSection <==> p * 10.0 >= LastSection as real
  {
    var f := (p * 10.0).Floor;
    if f < LastSection then f else LastSection
  }

  /** More progress never asks for an earlier section. */
  lemma ScrollTargetMonotone(p: real, q: real)
    requires p <= q
    ensures ScrollTarget(p) <= ScrollTarget(q)
  {
    assert p * 10.0 <= q * 10.0;
  }

  /** Measured over the section's own height, the progress at section `i`'s offset
      asks for section `i` again: the positions and the target agree. */
  lemma PositionsMapBackToSections(secTop: real, secHeight: real, i: int)
    requires secHeight > 0.0
    requires IsSection(i)
    ensures ScrollTarget((SectionPositions(secTop, secHeight)[i] - secTop) / secHeight) == i
  {
    var ps := SectionPositions(secTop, secHeight);
    var p := (ps[i] - secTop) / secHeight;
    assert ps[i] - secTop == secHeight * (i as real) / 10.0;
    assert p == (i as real) / 10.0;
    assert p * 10.0 == i as real;
  }

  /** The counter text `String(current + 1).padStart(2, "0")`. */
  function ProgressLabel(current: int): string {
    PadStart(IntToString(current + 1), 2, '0')
  }

  /** The fill width in percent, `current / 9 * 100`. */
  function ProgressWidth(current: int): (w: real)
    ensures current == 0 ==> w == 0.0
    ensures current == LastSection ==> w == 100.0
    ensures IsSection(current) ==> 0.0 <= w <= 100.0
  {
    (current as real / 9.0) * 100.0
  }

  /** The fill grows strictly with the section. */
  lemma ProgressWidthIncreases(i: int, j: int)
    requires i < j
    ensures ProgressWidth(i) < ProgressWidth(j)
  {
  }

  /** For every section the counter is two digits that read back as the section's
      one-based number, "01" through "10"; only the last has no leading zero. */
  lemma ProgressLabelReadsBack(current: int)
    requires IsSection(current)
    ensures |ProgressLabel(current)| == 2
    ensures AllDigits(ProgressLabel(current))
    ensures ParseNat(ProgressLabel(current)) == current + 1
    ensures ProgressLabel(current)[0] == '0' <==> current < LastSection
  {
    PaddedNumeralReadsBack(current + 1, 2);
    var s := NatToString(current + 1);
    if current < LastSection {
      assert |s| == 1;
      assert ProgressLabel(current) == Zeros(1) + s;
    } else {
      assert |s| == 2;
    }
  }
}

=== FILE: sound.dfy ===
/**
  The sound cue player as far as the page relies on it: three named cues with
  fixed volumes, a global on/off gate, the toggle button that flips the gate,
  and the rule that decides whether a requested cue is heard. Decoding, the
  audio graph and scheduling belong to the host.
*/
module Sound {

  datatype Cue = Hover | Click | TextChange

  /** The volume each cue is loaded with. */
  function Volume(c: Cue): (v: real)
    ensures 0.0 < v <= 0.3
    ensures v == 0.15 <==> c == Hover
    ensures c != Hover ==> v == 0.3
  {
    match c
    case Hover => 0.15
    case Click => 0.3
    case TextChange => 0.3
  }

  /** `enabled` is the global gate; `loaded` holds the cues whose decode succeeded. */
  datatype Player = Player(enabled: bool, loaded: set<Cue>)

  const InitialPlayer: Player := Player(false, {})

  /** `play` produces sound only when the gate is open and the cue has loaded. */
  predicate Audible(p: Player, c: Cue) {
    p.enabled && c in p.loaded
  }

  /** A cue finishes decoding; a failed decode simply never calls this. */
  function Loaded(p: Player, c: Cue): (r: Player)
    ensures r.enabled == p.enabled
    ensures r.loaded == p.loaded + {c}
    ensures Audible(r, c) <==> p.enabled
  {
    p.(loaded := p.loaded + {c})
  }

  /** `enableAudio`: opens the gate, whatever its state. */
  function EnableAudio(p: Player): (r: Player)
    ensures r.enabled
    ensures r.loaded == p.loaded
    ensures forall c :: Audible(r, c) <==> c in p.loaded
  {
    p.(enabled := true)
  }

  /** The sound toggle button: enables audio when off, turns it off when on. */
  function Toggle(p: Player): (r: Player)
    ensures r.enabled == !p.enabled
    ensures r.loaded == p.loaded
  {
    if !p.enabled then EnableAudio(p) else p.(enabled := false)
  }

  /** Enabling twice is enabling once. */
  lemma EnableIdempotent(p: Player)
    ensures EnableAudio(EnableAudio(p)) == EnableAudio(p)
  {
  }

  /** Two presses of the toggle restore the player. */
  lemma ToggleTwiceRestores(p: Player)
    ensures Toggle(Toggle(p)) == p
  {
  }

  /** With the gate closed no cue is heard, whatever has loaded. */
  lemma SilentWhileDisabled(p: Player, c: Cue)
    requires !p.enabled
    ensures !Audible(p, c)
  {
  }
}
